=== FILE: README.md ===
# Task annotator client — a Dafny model

This project models the logic of a small single-page task client. The client
signs users up and in against a hosted identity provider (Amazon Cognito), then
lists, creates, updates and deletes their tasks through a GraphQL endpoint
(AWS AppSync). Three pieces are modelled:

- `src/cognito.ts`: the input checks and normalisation that `signUp`,
  `confirmSignUp` and `signIn` apply before the provider is called.
  - Trimming, lower-casing, the email regular expression, the required-field
    messages and their order.
- `src/appsync.ts`: `appsyncRequest`.
  - The empty-query guard, the request it sends, and how it classifies the
    response: the HTTP status first, then `errors`, then `data`.
- `src/App.tsx`:
  - `mapFriendlyError`;
  - the three `canSubmit` guards;
  - every handler, as a function from the state before the user acted to the
    state once the handler has settled;
  - the view's wiring as a state machine over user events.

The remote services are parameters. Each is a function from the request the
client would send to the answer the service would give. "Rejects before calling
the service" is stated as: the result does not depend on that function. "Sends
exactly X" is stated as: two services that agree on X give the same result.

Modules:

| file | module | contents |
|---|---|---|
| outcomes.dfy | `Outcomes` | `Option` (null/undefined) and `Result` (a settled promise) |
| text.dfy | `Text` | `trim`, ASCII `toLowerCase`, `includes`, string truthiness, decimal rendering |
| email_pattern.dfy | `EmailPattern` | the email regular expression, by its meaning and as a structural test |
| cognito.dfy | `Cognito` | validation, normalisation and the three provider calls |
| appsync.dfy | `AppSync` | `appsyncRequest` and the response classification |
| friendly_errors.dfy | `FriendlyErrors` | `mapFriendlyError` and a table-lookup reference for it |
| app.dfy | `App` | the view state, the guards and the handlers |
| app_machine.dfy | `AppMachine` | user events, which of them are enabled, and the reachability invariant |

Behaviour the contracts make explicit:

- A successful sign-in whose first task load fails still ends in the tasks
  view. The token is kept and the banner shows the load error, because one
  `catch` covers both awaits (`App.HandleSignIn`).
- The Refresh button has no `catch`. A failed reload changes nothing and
  shows nothing (`App.HandleRefresh`).
- A GraphQL error entry whose `message` is the empty string produces an error
  with an empty message, because `??` replaces only a missing message
  (`AppSync.EmptyErrorMessageKept`).
- `data` that is present but falsy (`null`, `false`, `0`, `""`) is reported
  as missing (`AppSync.FalsyDataIsMissing`).
- The sign-in button needs a password that is not blank after trimming.
  `signIn` itself only rejects the empty password, and passes the password on
  untrimmed (`Cognito.WhitespacePasswordAccepted`, `App.CanSignIn`).

## Model

| member | source | states |
|---|---|---|
| Text.Trim | src/cognito.ts:30-31 | the result is the middle slice of the input with no whitespace at either end, everything cut off is whitespace, and the result is empty exactly when the input is all whitespace |
| Text.IsWhitespace | src/cognito.ts:11 | the character set `trim` strips and `\s` matches; space, tab, line feed and carriage return belong to it, no visible ASCII character does |
| Text.Truthy | src/cognito.ts:33-37 | JavaScript string truthiness (`!u`, `!e`, `!password`, and `Boolean(...)` in the `can...` guards at src/App.tsx:576-589): the empty string is falsy and every non-empty string is truthy, whitespace-only ones included |
| Text.ToLower | src/cognito.ts:31 | same length; each upper-case ASCII letter becomes the letter 32 code points up, its lower-case form; every other character is unchanged; so no upper-case letter remains and whitespace stays where it was |
| Text.TrimIdempotent | src/cognito.ts:30 | trimming twice is trimming once |
| Text.TrimCommutesWithLower | src/cognito.ts:31 | trimming then lower-casing equals lower-casing then trimming |
| Text.Contains | src/App.tsx:23-32 | `includes`: the empty string and every prefix occur, and no string longer than the message does |
| Text.Decimal | src/appsync.ts:36 | a status renders as a non-empty run of digits with no leading zero |
| Text.DecimalRoundTrip | src/appsync.ts:36 | the rendered status parses back to the same number |
| EmailPattern.ShapeIffPattern | src/cognito.ts:11 | the structural test (no whitespace, one '@' with text before it, a '.' with text on both sides after it) accepts exactly the strings the pattern's three runs match |
| EmailPattern.TestEmail | src/cognito.ts:11 | `emailPattern.test` is true exactly when the pattern matches; a match has at least five characters and no surrounding whitespace |
| EmailPattern.SampleAddressMatches | src/cognito.ts:11 | "a@b.c" matches |
| EmailPattern.SecondAtRefused | src/cognito.ts:11 | "a@b@c.d" does not match |
| Cognito.NormaliseEmail | src/cognito.ts:31 | the normalised address equals the input lower-cased and then trimmed; it is trimmed, has no upper-case letter, and is empty exactly when the input is blank |
| Cognito.NormaliseIdempotent | src/cognito.ts:31 | normalising a normalised address changes nothing |
| Cognito.NormaliseIgnoresPretrim | src/cognito.ts:69 | trimming before normalising changes nothing |
| Cognito.ValidateSignUp | src/cognito.ts:30-37 | the four checks in order (username, then email, then pattern, then password) with their messages; success exactly when all pass; the request is exactly the trimmed username, the password as typed and the normalised email |
| Cognito.SignUp | src/cognito.ts:24-46 | a blank username is rejected with its message; any rejected validation is the result; otherwise the provider's answer to the trimmed username, the password and the normalised email is |
| Cognito.ValidateConfirm | src/cognito.ts:50-54 | username checked before code; success exactly when neither is blank; the request is exactly the trimmed username and the trimmed code, both non-empty |
| Cognito.ConfirmSignUp | src/cognito.ts:48-62 | a rejected validation is the result; otherwise the provider's answer to the trimmed username and code is |
| Cognito.ValidateSignIn | src/cognito.ts:69-74 | email, then pattern, then password, with their messages; success exactly when the normalised address matches and the password is non-empty; the provider sees the normalised address as username |
| Cognito.SignIn | src/cognito.ts:64-85 | resolves exactly when validation passes and the provider authenticates, with the session's token; a provider failure rejects with the provider's own message; a new-password challenge rejects with its own message |
| Cognito.SignUpRejectsBeforeCalling | src/cognito.ts:33-41 | a rejected sign-up gives the same result whatever the provider would answer |
| Cognito.ConfirmRejectsBeforeCalling | src/cognito.ts:53-57 | a rejected confirmation gives the same result whatever the provider would answer |
| Cognito.SignInRejectsBeforeCalling | src/cognito.ts:71-79 | a rejected sign-in gives the same result whatever the provider would answer |
| Cognito.WhitespacePasswordAccepted | src/cognito.ts:37 | a non-empty whitespace-only password passes validation and is sent unchanged |
| Cognito.SignUpIgnoresPretrim | src/App.tsx:615 | the handler's own trimming of username and email makes no difference to sign-up validation |
| Cognito.ConfirmIgnoresPretrim | src/App.tsx:628 | the handler's own trimming of username and code makes no difference to confirmation |
| Cognito.SignInIgnoresPretrim | src/App.tsx:642 | the handler's own trimming of the email makes no difference to sign-in |
| Cognito.SignInCaseInsensitive | src/cognito.ts:69 | upper-case letters in the address do not change the sign-in request or its rejection |
| AppSync.FirstErrorMessage | src/appsync.ts:45 | the first entry's message when it has one (even ""), the generic text when the entry or its message is missing |
| AppSync.HasErrors | src/appsync.ts:44 | `errors?.length`: an absent or empty array counts as no errors, any entry counts as an error |
| AppSync.Json.Truthy | src/appsync.ts:48 | `!json.data`: a JSON value is falsy exactly when it is null, false, 0 or "" |
| AppSync.FailureMessage | src/appsync.ts:33-39 | starts with the fixed prefix, then the decimal status and a space; contains the status text and the body, or the placeholder when the body is empty |
| AppSync.FailureMessageStatusReadsBack | src/appsync.ts:36 | the digits after the prefix parse back to the HTTP status |
| AppSync.PrepareRequest | src/appsync.ts:19-31 | rejects exactly a blank query, with its message; otherwise the request is exactly the token as authorization, the trimmed query (non-empty) and the variables unchanged |
| AppSync.ClassifyBody | src/appsync.ts:44-52 | a non-empty errors array fails with the first message; else missing or falsy data fails; succeeds exactly in the remaining case, with the data |
| AppSync.Classify | src/appsync.ts:33-52 | a non-ok status fails with the failure message built from the body text, or with the text reader's own rejection; an ok status fails with the decoder's rejection or else is the body classification; succeeds exactly when the status is ok, decoding succeeds, there are no errors and the data is truthy |
| AppSync.AppsyncRequest | src/appsync.ts:14-53 | a blank query fails without a request; otherwise a rejected `fetch` of the trimmed query is passed on, and a resolved one is classified |
| AppSync.BlankQueryNeverSent | src/appsync.ts:19-22 | a blank query gives the same error whatever the endpoint would answer |
| AppSync.StatusBeforeBody | src/appsync.ts:33-40 | with a non-ok status the outcome fails and does not depend on what the JSON decoder would give |
| AppSync.ErrorsBeforeData | src/appsync.ts:44-46 | with a non-empty errors array the data does not affect the outcome |
| AppSync.EmptyErrorsAreNoErrors | src/appsync.ts:44 | an empty errors array is treated like an absent one |
| AppSync.FalsyDataIsMissing | src/appsync.ts:48-50 | null, false, 0 and "" as data are reported as missing data |
| AppSync.EmptyErrorMessageKept | src/appsync.ts:45 | an error entry with message "" yields an error whose message is "" |
| FriendlyErrors.MapFriendlyError | src/App.tsx:21-34 | the result is the message itself or one of the six texts; "UserNotConfirmedException" always wins; a message naming no exception is returned unchanged |
| App.Banner | src/App.tsx:618 | `setErr(mapFriendlyError(e?.message ?? String(e)))` in each handler's catch (also lines 632, 649, 673, 689 and 703): the banner shows the message itself or one of the friendly texts, and a message naming no exception is shown unchanged; for non-`Error` rejections see the App.Banner line under "## Left out" |
| FriendlyErrors.FirstMatchIsFirst | src/App.tsx:23-32 | the reference lookup returns row k's text when row k's name occurs and no earlier name does |
| FriendlyErrors.FirstMatchNone | src/App.tsx:33 | the reference lookup finds nothing exactly when no name occurs |
| FriendlyErrors.MapFriendlyErrorIsLookup | src/App.tsx:21-34 | the chain of tests equals the first-match lookup in the ordered table, falling back to the message |
| FriendlyErrors.MapFriendlyErrorPriority | src/App.tsx:23-32 | when several names occur, the earliest in the order decides the text |
| FriendlyErrors.MentionsNoExceptionWithout | src/App.tsx:33 | a text without a capital 'E' (or without an 'x') names no exception and is returned unchanged |
| FriendlyErrors.FriendlyTextsMentionNoException | src/App.tsx:24-32 | none of the six texts names an exception |
| FriendlyErrors.MapFriendlyErrorIdempotent | src/App.tsx:21-34 | mapping a mapped message changes nothing |
| App.CanSignUp | src/App.tsx:576-579 | enabled exactly when username, email and password are all not blank |
| App.CanSignIn | src/App.tsx:581-584 | enabled exactly when email and password are both not blank |
| App.CanConfirm | src/App.tsx:586-589 | enabled exactly when email, code and username are all not blank |
| App.HasToken | src/App.tsx:663 | `!idToken`: signed in exactly when a non-empty token is held; the empty token counts as signed out |
| App.SignUpGuardImpliesSignInGuard | src/App.tsx:576-584 | the sign-up guard is the sign-in guard plus a non-blank username |
| App.Reload | src/App.tsx:603-609 | a loaded list replaces the tasks; a failed load keeps them and shows the mapped error; the form fields, view, token and title are unchanged |
| App.HandleSignUp | src/App.tsx:611-622 | no error exactly when sign-up with the trimmed fields succeeds, and then the confirmation view opens; otherwise the view stays and the banner shows the mapped error; the fields are untouched and busy is lowered |
| App.HandleConfirm | src/App.tsx:624-636 | success opens sign-in and clears the code; failure keeps view and code and shows the mapped error |
| App.HandleSignIn | src/App.tsx:638-653 | success stores the token and opens the tasks view, then the load either fills the tasks or shows its error; a failed sign-in only sets the banner and lowers busy |
| App.HandleLogout | src/App.tsx:655-660 | from any state: sign-in view, no token, no tasks; everything else kept |
| App.MutateAndReload | src/App.tsx:684-687 | a failed mutation shows its error and keeps the tasks; a successful one is followed by the reload; the form fields, view, token and title are unchanged |
| App.HandleCreate | src/App.tsx:662-677 | nothing without a token; a blank title shows "Title is required." without sending; otherwise the trimmed title is sent, the input is cleared on success and the list reloaded (or the load error shown), or the mutation error shown; the form fields, view and token never change |
| App.HandleUpdateStatus | src/App.tsx:679-693 | nothing without a token; otherwise the mutation's failure, or the reload's result or failure, decides tasks and banner; the form fields, view, token and title are unchanged |
| App.HandleDelete | src/App.tsx:695-707 | nothing without a token; otherwise the mutation's failure, or the reload's result or failure, decides tasks and banner; the form fields, view, token and title are unchanged |
| App.HandleRefresh | src/App.tsx:790 | nothing without a token; a loaded list replaces the tasks; a failed load changes nothing |
| App.ValidationMessagesShownVerbatim | src/App.tsx:618 | the client's own validation messages pass through the mapper unchanged |
| App.SignUpBlankUsernameReported | src/App.tsx:611-621 | a blank username shows "Username is required" whatever the provider would answer |
| App.ConfirmBlankCodeReported | src/App.tsx:624-635 | a blank code shows its message and the code field keeps what was typed |
| App.SignInSendsNormalisedEmail | src/App.tsx:642 | providers that agree on the normalised address and raw password give the same resulting state |
| App.CreateSendsTrimmedTitle | src/App.tsx:667-669 | mutation services that agree on the trimmed title give the same resulting state |
| App.LogoutIdempotent | src/App.tsx:655-660 | logging out twice is logging out once |
| AppMachine.Step | src/App.tsx:742-796 | an event whose control is not rendered or is disabled changes nothing |
| AppMachine.Dispatch | src/App.tsx:742-796 | the wiring of each control: an edit sets only its own field, a view link sets only the mode, and each button runs its own handler (sign-up, confirm, sign-in, refresh, logout, create, status update, delete) with the services' answers and, for the task controls, the chosen task's id |
| AppMachine.Enabled | src/App.tsx:742-796 | a control acts exactly when it is rendered and not disabled: nothing while busy, only the task controls in the tasks view and none of them elsewhere; each submit button is enabled exactly in its own view with its `canSubmit` guard true, Create exactly in the tasks view with a non-blank title, the email field, password field and view links whenever their view is shown, and a status `<select>` fires only for a listed task and a status different from its current one (src/App.tsx:513-515) |
| AppMachine.StepKeepsConsistent | src/App.tsx:742-796 | every action keeps the invariant: not busy, tasks view exactly when a token is held, no tasks outside it |
| AppMachine.RunKeepsConsistent | src/App.tsx:742-796 | any sequence of actions from a consistent state keeps the invariant |
| AppMachine.ReachableStatesConsistent | src/App.tsx:553-574 | from the initial state, whatever the user does and the services answer, the invariant holds |
| AppMachine.TasksViewOnlyAfterSignIn | src/App.tsx:642-646 | the only way into the tasks view is a sign-in the provider authenticated, and the stored token is the one it returned |
| AppMachine.SignInReachesTasks | src/App.tsx:638-646 | the tasks view is reachable: from the initial state, entering "a@b.c" and "p" and submitting the sign-in form ends in the tasks view holding the token the provider returned |
| AppMachine.EnabledSignUpPassesRequiredChecks | src/App.tsx:761 | with the sign-up button enabled, the only client-side rejection left is an invalid address |
| AppMachine.EnabledSignInPassesRequiredChecks | src/App.tsx:747 | with the sign-in button enabled, the only client-side rejection left is an invalid address |
| AppMachine.EnabledConfirmPassesChecks | src/App.tsx:776 | with the verify button enabled, the confirmation always reaches the provider |

## Left out

- Rendering, styling and the form components (`src/App.tsx`:36-551) are not modelled. Only which controls each view shows and when they are disabled is modelled, in `AppMachine.Enabled`.
- `orderedTasks` (the newest-first sort by `createdAt`) and date formatting are not modelled, because they involve date parsing. Events address tasks by their index in the unsorted list, which reaches the same tasks.
- `signOut` and `getIdToken` (`src/cognito.ts`:87-101) and the session-restoring `useEffect` (`src/App.tsx`:591-601) are not modelled. They depend on the SDK's stored session, so `AppMachine` starts from the signed-out initial state.
- The missing-environment-variable checks at module load are not modelled. The pool, the endpoint URL and the SDK objects are represented by the service parameters.
- `fetch`, `res.text()`, `res.json()` and the Cognito SDK callbacks are service parameters. The model gives what each settles to, including a rejection, instead of deriving it from bytes on the wire.
- Cognito.SignIn: only the three `authenticateUser` outcomes the client supplies callbacks for are modelled. Other challenges (multi-factor, custom authentication) are not modelled.
- The GraphQL documents in `src/graphql.ts` are not modelled. Mutations are the abstract `App.Mutation` values, and the list query is an abstract `App.ListTasks`.
- Concurrency is not modelled: each handler runs to completion before the next event. So `busy` is never observed as true between actions, and interleaved handlers are not modelled.
- App.Banner: a rejection that is not an `Error` (`String(e)`) is not modelled. Every rejection reaching App.HandleSignUp, App.HandleConfirm, App.HandleSignIn and the task handlers carries a string message.
- AppSync.Json: numbers are integers (`JNumber(n: int)`), so a fractional JSON number such as 0.5 cannot be represented. Truthiness is unaffected, but a returned `data` value holding such a number is not modelled.
- FriendlyErrors.MapFriendlyError: a `message` that is `undefined` or `null` (`message || ""`) is not modelled, because the model's messages are always strings.
- Text.ToLower: only ASCII letters are lower-cased. Full Unicode case mapping is not modelled.
- Text.IsWhitespace: strings are sequences of Unicode scalar values, not UTF-16 code units. Lone surrogates cannot be represented.
- AppSync.HttpResponse: the status is a non-negative integer, and a decoded body has the fixed `GraphQLResponse` shape. A JSON body that is not an object, or an `errors` member that is not an array, is not modelled.
- `src/main.tsx` (mounting the component) is not part of this model.

=== FILE: app.dfy ===
/**
  The single-page client's view state and its handlers.

  Each handler is a function from the state before the user acted to the state
  once the handler's promise has settled. The remote services it awaits are
  parameters: the identity provider (through the `Cognito` model), the task
  list query and the task mutations. Every handler that awaits something
  clears `err` and raises `busy` first, and lowers `busy` again in its
  `finally` block; the bodies below follow those steps in order.
 */
module App {
  import opened Outcomes
  import opened Text
  import Cognito
  import FriendlyErrors

  const TitleRequired := "Title is required."

  /** Which view is shown */
  datatype Mode = SignIn | SignUp | Confirm | Tasks

  /** A task record as the list query returns it */
  datatype Task = Task(owner: string, taskId: string, title: string, status: string, createdAt: string)

  /** The component's state variables */
  datatype State = State(
    mode: Mode,
    username: string,
    email: string,
    password: string,
    code: string,
    idToken: Option<string>,
    tasks: seq<Task>,
    newTitle: string,
    err: Option<string>,
    busy: bool)

  /** The state on first render */
  const Initial := State(SignIn, "", "", "", "", None, [], "", None, false)

  /** The mutations the tasks view sends */
  datatype Mutation =
    | CreateTask(title: string)
    | UpdateTaskStatus(taskId: string, status: string)
    | DeleteTask(taskId: string)

  /** `loadTasks(token)`: the list query's outcome for a token */
  type ListTasks = string -> Result<seq<Task>>

  /** `appsyncRequest(token, mutation, variables)`: a mutation's outcome for a token */
  type Mutate = (string, Mutation) -> Result<()>

  /** `if (!idToken) return`: null and the empty token both count as signed out */
  predicate HasToken(s: State): (b: bool)
    ensures b ==> s.idToken.Some?
    ensures s.idToken == Some("") ==> !b
    ensures s.idToken.Some? && |s.idToken.value| > 0 ==> b
  {
    s.idToken.Some? && s.idToken.value != []
  }

  /** The error banner text for a rejection: the message itself, or one of the friendly texts */
  function Banner(message: string): (b: string)
    ensures b == message || FriendlyErrors.IsFriendlyText(b)
    ensures FriendlyErrors.MentionsNoException(message) ==> b == message
  {
    FriendlyErrors.MapFriendlyError(message)
  }

  /** The sign-in, sign-up and confirmation form fields are as they were */
  predicate SameForm(s: State, t: State) {
    t.username == s.username && t.email == s.email && t.password == s.password && t.code == s.code
  }

  /** The form fields and session data a handler may leave alone */
  predicate SameData(s: State, t: State) {
    && SameForm(s, t)
    && t.idToken == s.idToken && t.tasks == s.tasks && t.newTitle == s.newTitle
  }

  /** The sign-up button's guard */
  function CanSignUp(s: State): (ok: bool)
    ensures ok <==> !AllWhitespace(s.username) && !AllWhitespace(s.email) && !AllWhitespace(s.password)
  {
    Truthy(Trim(s.username)) && Truthy(Trim(s.email)) && Truthy(Trim(s.password))
  }

  /** The sign-in button's guard */
  function CanSignIn(s: State): (ok: bool)
    ensures ok <==> !AllWhitespace(s.email) && !AllWhitespace(s.password)
  {
    Truthy(Trim(s.email)) && Truthy(Trim(s.password))
  }

  /** The verify button's guard */
  function CanConfirm(s: State): (ok: bool)
    ensures ok <==> !AllWhitespace(s.email) && !AllWhitespace(s.code) && !AllWhitespace(s.username)
  {
    Truthy(Trim(s.email)) && Truthy(Trim(s.code)) && Truthy(Trim(s.username))
  }

  /** `loadTasks(token)` inside a handler's `try`: the list replaces `tasks`, or the rejection shows */
  function Reload(s: State, token: string, list: ListTasks): (t: State)
    ensures SameForm(s, t)
    ensures t.mode == s.mode && t.busy == s.busy && t.idToken == s.idToken && t.newTitle == s.newTitle
    ensures list(token).Ok? ==> t.tasks == list(token).value && t.err == s.err
    ensures list(token).Err? ==> t.tasks == s.tasks && t.err == Some(Banner(list(token).msg))
  {
    match list(token)
    case Ok(tasks) => s.(tasks := tasks)
    case Err(message) => s.(err := Some(Banner(message)))
  }

  /** `handleSignUp`: on success the confirmation view opens; on failure the banner shows why */
  function HandleSignUp(s: State, provider: Cognito.SignUpCall -> Result<()>): (t: State)
    ensures !t.busy && SameData(s, t)
    ensures t.err.None? ==> t.mode == Confirm
    ensures t.err.Some? ==> t.mode == s.mode
    ensures t.err.None? <==> Cognito.SignUp(Trim(s.username), Trim(s.email), s.password, provider).Ok?
    ensures t.err.Some? ==>
      t.err.value == Banner(Cognito.SignUp(Trim(s.username), Trim(s.email), s.password, provider).msg)
  {
    var started := s.(err := None, busy := true);
    var settled :=
      match Cognito.SignUp(Trim(s.username), Trim(s.email), s.password, provider)
      case Ok(_) => started.(mode := Confirm)
      case Err(message) => started.(err := Some(Banner(message)));
    settled.(busy := false)
  }

  /** `handleConfirm`: on success the sign-in view opens and the code is cleared */
  function HandleConfirm(s: State, provider: Cognito.ConfirmCall -> Result<()>): (t: State)
    ensures !t.busy
    ensures t.username == s.username && t.email == s.email && t.password == s.password
    ensures t.idToken == s.idToken && t.tasks == s.tasks && t.newTitle == s.newTitle
    ensures t.err.None? ==> t.mode == SignIn && t.code == []
    ensures t.err.Some? ==> t.mode == s.mode && t.code == s.code
    ensures t.err.None? <==> Cognito.ConfirmSignUp(Trim(s.username), Trim(s.code), provider).Ok?
    ensures t.err.Some? ==>
      t.err.value == Banner(Cognito.ConfirmSignUp(Trim(s.username), Trim(s.code), provider).msg)
  {
    var started := s.(err := None, busy := true);
    var settled :=
      match Cognito.ConfirmSignUp(Trim(s.username), Trim(s.code), provider)
      case Ok(_) => started.(mode := SignIn, code := "")
      case Err(message) => started.(err := Some(Banner(message)));
    settled.(busy := false)
  }

  /**
    `handleSignIn`: on success the token is stored and the tasks view opens
    before the task list is fetched; the same `catch` covers that fetch.
   */
  function HandleSignIn(s: State, provider: Cognito.SignInCall -> Cognito.SignInReply, list: ListTasks): (t: State)
    ensures !t.busy
    ensures t.username == s.username && t.email == s.email && t.password == s.password
    ensures t.code == s.code && t.newTitle == s.newTitle
    ensures var o := Cognito.SignIn(Trim(s.email), s.password, provider);
      && (o.Ok? ==> t.mode == Tasks && t.idToken == Some(o.value)
                    && (list(o.value).Ok? ==> t.tasks == list(o.value).value && t.err.None?)
                    && (list(o.value).Err? ==> t.tasks == s.tasks && t.err == Some(Banner(list(o.value).msg))))
      && (o.Err? ==> t == s.(err := Some(Banner(o.msg)), busy := false))
  {
    var started := s.(err := None, busy := true);
    var settled :=
      match Cognito.SignIn(Trim(s.email), s.password, provider)
      case Ok(token) => Reload(started.(idToken := Some(token), mode := Tasks), token, list)
      case Err(message) => started.(err := Some(Banner(message)));
    settled.(busy := false)
  }

  /** `handleLogout`: forgets the session and returns to the sign-in view, from any state */
  function HandleLogout(s: State): (t: State)
    ensures t.mode == SignIn && t.idToken.None? && t.tasks == []
    ensures t.username == s.username && t.email == s.email && t.password == s.password
    ensures t.code == s.code && t.newTitle == s.newTitle && t.err == s.err && t.busy == s.busy
  {
    s.(idToken := None, tasks := [], mode := SignIn)
  }

  /** The `try` block shared by update and delete: send the mutation, then reload */
  function MutateAndReload(s: State, token: string, mutation: Mutation, mutate: Mutate, list: ListTasks): (t: State)
    ensures SameForm(s, t)
    ensures t.mode == s.mode && t.idToken == s.idToken && t.newTitle == s.newTitle && t.busy == s.busy
    ensures mutate(token, mutation).Err? ==> t.tasks == s.tasks && t.err == Some(Banner(mutate(token, mutation).msg))
    ensures mutate(token, mutation).Ok? ==> t == Reload(s, token, list)
  {
    match mutate(token, mutation)
    case Ok(_) => Reload(s, token, list)
    case Err(message) => s.(err := Some(Banner(message)))
  }

  /**
    `handleCreate`: does nothing while signed out; a blank title is refused
    before anything is sent; otherwise the trimmed title is sent, the input is
    cleared and the list reloaded.
   */
  function HandleCreate(s: State, mutate: Mutate, list: ListTasks): (t: State)
    ensures !HasToken(s) ==> t == s
    ensures SameForm(s, t)
    ensures HasToken(s) ==> !t.busy && t.mode == s.mode && t.idToken == s.idToken
    ensures HasToken(s) && AllWhitespace(s.newTitle) ==>
      t == s.(err := Some(TitleRequired), busy := false)
    ensures HasToken(s) && !AllWhitespace(s.newTitle) ==>
      var o := mutate(s.idToken.value, CreateTask(Trim(s.newTitle)));
      var l := list(s.idToken.value);
      && (o.Err? ==> t.newTitle == s.newTitle && t.tasks == s.tasks && t.err == Some(Banner(o.msg)))
      && (o.Ok? ==> t.newTitle == [])
      && (o.Ok? && l.Ok? ==> t.tasks == l.value && t.err.None?)
      && (o.Ok? && l.Err? ==> t.tasks == s.tasks && t.err == Some(Banner(l.msg)))
  {
    if !HasToken(s) then s
    else
      var token := s.idToken.value;
      var started := s.(err := None, busy := true);
      var title := Trim(s.newTitle);
      var settled :=
        if !Truthy(title) then
          FriendlyErrors.MentionsNoExceptionWithout(TitleRequired, 'x');
          started.(err := Some(Banner(TitleRequired)))
        else
          match mutate(token, CreateTask(title))
          case Ok(_) => Reload(started.(newTitle := ""), token, list)
          case Err(message) => started.(err := Some(Banner(message)));
      settled.(busy := false)
  }

  /** `handleUpdateStatus`: does nothing while signed out; otherwise sends the new status and reloads */
  function HandleUpdateStatus(s: State, taskId: string, status: string, mutate: Mutate, list: ListTasks): (t: State)
    ensures !HasToken(s) ==> t == s
    ensures SameForm(s, t)
    ensures HasToken(s) ==> !t.busy && t.mode == s.mode && t.idToken == s.idToken && t.newTitle == s.newTitle
    ensures HasToken(s) ==>
      var o := mutate(s.idToken.value, UpdateTaskStatus(taskId, status));
      var l := list(s.idToken.value);
      && (o.Err? ==> t.tasks == s.tasks && t.err == Some(Banner(o.msg)))
      && (o.Ok? && l.Ok? ==> t.tasks == l.value && t.err.None?)
      && (o.Ok? && l.Err? ==> t.tasks == s.tasks && t.err == Some(Banner(l.msg)))
  {
    if !HasToken(s) then s
    else
      var token := s.idToken.value;
      var started := s.(err := None, busy := true);
      MutateAndReload(started, token, UpdateTaskStatus(taskId, status), mutate, list).(busy := false)
  }

  /** `handleDelete`: does nothing while signed out; otherwise sends the deletion and reloads */
  function HandleDelete(s: State, taskId: string, mutate: Mutate, list: ListTasks): (t: State)
    ensures !HasToken(s) ==> t == s
    ensures SameForm(s, t)
    ensures HasToken(s) ==> !t.busy && t.mode == s.mode && t.idToken == s.idToken && t.newTitle == s.newTitle
    ensures HasToken(s) ==>
      var o := mutate(s.idToken.value, DeleteTask(taskId));
      var l := list(s.idToken.value);
      && (o.Err? ==> t.tasks == s.tasks && t.err == Some(Banner(o.msg)))
      && (o.Ok? && l.Ok? ==> t.tasks == l.value && t.err.None?)
      && (o.Ok? && l.Err? ==> t.tasks == s.tasks && t.err == Some(Banner(l.msg)))
  {
    if !HasToken(s) then s
    else
      var token := s.idToken.value;
      var started := s.(err := None, busy := true);
      MutateAndReload(started, token, DeleteTask(taskId), mutate, list).(busy := false)
  }

  /**
    The Refresh button: `idToken && loadTasks(idToken)` with no `catch`, so a
    failed reload leaves the state as it was and shows nothing.
   */
  function HandleRefresh(s: State, list: ListTasks): (t: State)
    ensures !HasToken(s) ==> t == s
    ensures HasToken(s) && list(s.idToken.value).Ok? ==> t == s.(tasks := list(s.idToken.value).value)
    ensures HasToken(s) && list(s.idToken.value).Err? ==> t == s
  {
    if !HasToken(s) then s
    else
      match list(s.idToken.value)
      case Ok(tasks) => s.(tasks := tasks)
      case Err(_) => s
  }

  /** The sign-up guard is the sign-in guard plus a username */
  lemma SignUpGuardImpliesSignInGuard(s: State)
    ensures CanSignUp(s) <==> CanSignIn(s) && !AllWhitespace(s.username)
  {
  }

  /** The client's own validation messages mention no exception name, so the banner shows them verbatim */
  lemma ValidationMessagesShownVerbatim()
    ensures Banner(Cognito.UsernameRequired) == Cognito.UsernameRequired
    ensures Banner(Cognito.EmailRequired) == Cognito.EmailRequired
    ensures Banner(Cognito.InvalidEmail) == Cognito.InvalidEmail
    ensures Banner(Cognito.PasswordRequired) == Cognito.PasswordRequired
    ensures Banner(Cognito.CodeRequired) == Cognito.CodeRequired
    ensures Banner(Cognito.NewPasswordRequired) == Cognito.NewPasswordRequired
    ensures Banner(TitleRequired) == TitleRequired
  {
    FriendlyErrors.MentionsNoExceptionWithout(Cognito.UsernameRequired, 'x');
    FriendlyErrors.MentionsNoExceptionWithout(Cognito.EmailRequired, 'x');
    FriendlyErrors.MentionsNoExceptionWithout(Cognito.InvalidEmail, 'x');
    FriendlyErrors.MentionsNoExceptionWithout(Cognito.PasswordRequired, 'x');
    FriendlyErrors.MentionsNoExceptionWithout(Cognito.CodeRequired, 'x');
    FriendlyErrors.MentionsNoExceptionWithout(Cognito.NewPasswordRequired, 'x');
    FriendlyErrors.MentionsNoExceptionWithout(TitleRequired, 'x');
  }

  /** A blank username is reported before anything is sent, whatever the provider would say */
  lemma SignUpBlankUsernameReported(s: State, provider: Cognito.SignUpCall -> Result<()>)
    requires AllWhitespace(s.username)
    ensures HandleSignUp(s, provider) == s.(err := Some(Cognito.UsernameRequired), busy := false)
  {
    ValidationMessagesShownVerbatim();
    assert AllWhitespace(Trim(s.username));
  }

  /** A blank code is reported before anything is sent, and the code field keeps what was typed */
  lemma ConfirmBlankCodeReported(s: State, provider: Cognito.ConfirmCall -> Result<()>)
    requires !AllWhitespace(s.username) && AllWhitespace(s.code)
    ensures HandleConfirm(s, provider) == s.(err := Some(Cognito.CodeRequired), busy := false)
  {
    ValidationMessagesShownVerbatim();
    Cognito.ConfirmIgnoresPretrim(s.username, s.code);
  }

  /** The provider is asked about the normalised address and the password exactly as typed */
  lemma SignInSendsNormalisedEmail(s: State, p1: Cognito.SignInCall -> Cognito.SignInReply,
                                   p2: Cognito.SignInCall -> Cognito.SignInReply, list: ListTasks)
    requires p1(Cognito.SignInCall(Cognito.NormaliseEmail(s.email), s.password))
          == p2(Cognito.SignInCall(Cognito.NormaliseEmail(s.email), s.password))
    ensures HandleSignIn(s, p1, list) == HandleSignIn(s, p2, list)
  {
    Cognito.NormaliseIgnoresPretrim(s.email);
  }

  /** Creating sends only the trimmed title: mutation services that agree on it give the same state */
  lemma CreateSendsTrimmedTitle(s: State, m1: Mutate, m2: Mutate, list: ListTasks)
    requires HasToken(s)
    requires m1(s.idToken.value, CreateTask(Trim(s.newTitle))) == m2(s.idToken.value, CreateTask(Trim(s.newTitle)))
    ensures HandleCreate(s, m1, list) == HandleCreate(s, m2, list)
  {
  }

  /** Logging out twice is the same as logging out once */
  lemma LogoutIdempotent(s: State)
    ensures HandleLogout(HandleLogout(s)) == HandleLogout(s)
  {
  }
}

=== FILE: app_machine.dfy ===
/**
  The view as a state machine: which controls each mode renders, when they are
  enabled, and which handler each one runs. A user action is an `Event`; the
  answers the remote services give to that action form a `Backend`.

  Because every handler settles before the next action in this model, `busy`
  is always false between actions. What remains of the guards is the mode,
  the `canSubmit` predicates, a non-blank title for Create, and for the task
  controls a task that is listed and, for a status change, one of the two
  offered statuses other than the task's current one (a `<select>` reports a
  change only when the selection differs).
 */
module AppMachine {
  import opened Outcomes
  import opened Text
  import opened App
  import Cognito
  import EmailPattern

  /** A user action on a rendered, enabled control */
  datatype Event =
    | EditUsername(value: string)
    | EditEmail(value: string)
    | EditPassword(value: string)
    | EditCode(value: string)
    | EditNewTitle(value: string)
    | GoSignUp
    | GoSignIn
    | SubmitSignUp
    | SubmitConfirm
    | SubmitSignIn
    | Refresh
    | Logout
    | Create
    | UpdateStatus(index: nat, status: string)
    | Delete(index: nat)

  /** What the remote services answer during one action */
  datatype Backend = Backend(
    signUp: Cognito.SignUpCall -> Result<()>,
    confirm: Cognito.ConfirmCall -> Result<()>,
    signIn: Cognito.SignInCall -> Cognito.SignInReply,
    mutate: Mutate,
    list: ListTasks)

  /**
    The control exists in the current view and is not disabled. Nothing is
    enabled while a handler is in flight, and each view offers only its own
    form's controls.
   */
  predicate Enabled(s: State, e: Event): (b: bool)
    ensures b ==> !s.busy
    ensures b && s.mode == Tasks ==>
      e.EditNewTitle? || e.Refresh? || e.Logout? || e.Create? || e.UpdateStatus? || e.Delete?
    ensures b && s.mode != Tasks ==> !(e.Refresh? || e.Logout? || e.Create? || e.UpdateStatus? || e.Delete?)
    ensures b && (e.SubmitSignIn? || e.SubmitSignUp? || e.SubmitConfirm?) ==> !AllWhitespace(s.email)
    ensures e == SubmitSignIn ==> (b <==> !s.busy && s.mode == SignIn && CanSignIn(s))
    ensures e == SubmitSignUp ==> (b <==> !s.busy && s.mode == SignUp && CanSignUp(s))
    ensures e == SubmitConfirm ==> (b <==> !s.busy && s.mode == Confirm && CanConfirm(s))
    ensures e == Create ==> (b <==> !s.busy && s.mode == Tasks && !AllWhitespace(s.newTitle))
    ensures !s.busy && s.mode != Tasks && e.EditEmail? ==> b
    ensures !s.busy && s.mode == SignIn && (e.EditPassword? || e == GoSignUp) ==> b
    ensures !s.busy && s.mode == Tasks && (e.EditNewTitle? || e == Refresh || e == Logout) ==> b
    ensures e.UpdateStatus? ==> (b ==> e.index < |s.tasks| && e.status != s.tasks[e.index].status)
  {
    !s.busy &&
    match e
    case EditUsername(_) => s.mode == SignUp
    case EditEmail(_) => s.mode != Tasks
    case EditPassword(_) => s.mode == SignIn || s.mode == SignUp
    case EditCode(_) => s.mode == Confirm
    case EditNewTitle(_) => s.mode == Tasks
    case GoSignUp => s.mode == SignIn
    case GoSignIn => s.mode == SignUp || s.mode == Confirm
    case SubmitSignUp => s.mode == SignUp && CanSignUp(s)
    case SubmitConfirm => s.mode == Confirm && CanConfirm(s)
    case SubmitSignIn => s.mode == SignIn && CanSignIn(s)
    case Refresh => s.mode == Tasks
    case Logout => s.mode == Tasks
    case Create => s.mode == Tasks && Truthy(Trim(s.newTitle))
    case UpdateStatus(i, status) =>
      s.mode == Tasks && i < |s.tasks| && (status == "OPEN" || status == "DONE") && status != s.tasks[i].status
    case Delete(i) => s.mode == Tasks && i < |s.tasks|
  }

  /**
    The invariant every reachable state keeps: nothing is in flight, the tasks
    view is shown exactly when a token is held, and no task list survives
    outside the tasks view.
   */
  predicate Consistent(s: State) {
    && !s.busy
    && (s.mode == Tasks <==> s.idToken.Some?)
    && (s.mode != Tasks ==> s.tasks == [])
  }

  /**
    The handler an enabled control runs: an edit sets only its own field, a
    link sets only the mode, and a button runs its handler with the services'
    answers.
   */
  function Dispatch(s: State, e: Event, b: Backend): (t: State)
    requires Enabled(s, e)
    ensures e.EditUsername? ==> t == s.(username := e.value)
    ensures e.EditEmail? ==> t == s.(email := e.value)
    ensures e.EditPassword? ==> t == s.(password := e.value)
    ensures e.EditCode? ==> t == s.(code := e.value)
    ensures e.EditNewTitle? ==> t == s.(newTitle := e.value)
    ensures e == GoSignUp ==> t == s.(mode := SignUp)
    ensures e == GoSignIn ==> t == s.(mode := SignIn)
    ensures e == SubmitSignUp ==> t == HandleSignUp(s, b.signUp)
    ensures e == SubmitConfirm ==> t == HandleConfirm(s, b.confirm)
    ensures e == SubmitSignIn ==> t == HandleSignIn(s, b.signIn, b.list)
    ensures e == Refresh ==> t == HandleRefresh(s, b.list)
    ensures e == Logout ==> t == HandleLogout(s)
    ensures e == Create ==> t == HandleCreate(s, b.mutate, b.list)
    ensures e.UpdateStatus? ==>
      (e.index < |s.tasks| && t == HandleUpdateStatus(s, s.tasks[e.index].taskId, e.status, b.mutate, b.list))
    ensures e.Delete? ==> e.index < |s.tasks| && t == HandleDelete(s, s.tasks[e.index].taskId, b.mutate, b.list)
  {
    match e
    case EditUsername(v) => s.(username := v)
    case EditEmail(v) => s.(email := v)
    case EditPassword(v) => s.(password := v)
    case EditCode(v) => s.(code := v)
    case EditNewTitle(v) => s.(newTitle := v)
    case GoSignUp => s.(mode := SignUp)
    case GoSignIn => s.(mode := SignIn)
    case SubmitSignUp => HandleSignUp(s, b.signUp)
    case SubmitConfirm => HandleConfirm(s, b.confirm)
    case SubmitSignIn => HandleSignIn(s, b.signIn, b.list)
    case Refresh => HandleRefresh(s, b.list)
    case Logout => HandleLogout(s)
    case Create => HandleCreate(s, b.mutate, b.list)
    case UpdateStatus(i, status) => HandleUpdateStatus(s, s.tasks[i].taskId, status, b.mutate, b.list)
    case Delete(i) => HandleDelete(s, s.tasks[i].taskId, b.mutate, b.list)
  }

  /** One user action, run to completion */
  function Step(s: State, e: Event, b: Backend): (t: State)
    ensures !Enabled(s, e) ==> t == s
  {
    if !Enabled(s, e) then s else Dispatch(s, e, b)
  }

  /** One action keeps the invariant */
  lemma StepKeepsConsistent(s: State, e: Event, b: Backend)
    requires Consistent(s)
    ensures Consistent(Step(s, e, b))
  {
    if Enabled(s, e) {
      assert Step(s, e, b) == Dispatch(s, e, b);
      match e
      case SubmitSignUp =>
        var t := HandleSignUp(s, b.signUp);
        assert Dispatch(s, e, b) == t;
        assert t.mode == Confirm || t.mode == SignUp;
      case SubmitConfirm =>
        var t := HandleConfirm(s, b.confirm);
        assert Dispatch(s, e, b) == t;
        assert t.mode == SignIn || t.mode == Confirm;
      case SubmitSignIn =>
        var t := HandleSignIn(s, b.signIn, b.list);
        assert Dispatch(s, e, b) == t;
      case Refresh =>
        assert Dispatch(s, e, b) == HandleRefresh(s, b.list);
      case Logout =>
        assert Dispatch(s, e, b) == HandleLogout(s);
      case Create =>
        assert Dispatch(s, e, b) == HandleCreate(s, b.mutate, b.list);
      case UpdateStatus(i, status) =>
        assert Dispatch(s, e, b) == HandleUpdateStatus(s, s.tasks[i].taskId, status, b.mutate, b.list);
      case Delete(i) =>
        assert Dispatch(s, e, b) == HandleDelete(s, s.tasks[i].taskId, b.mutate, b.list);
      case _ =>
    }
  }

  /** A sequence of actions, each with the answers the services gave it */
  function Run(s: State, actions: seq<(Event, Backend)>): State
    decreases |actions|
  {
    if actions == [] then s else Run(Step(s, actions[0].0, actions[0].1), actions[1..])
  }

  /** Every state reachable from a consistent one is consistent */
  lemma {:induction false} RunKeepsConsistent(s: State, actions: seq<(Event, Backend)>)
    requires Consistent(s)
    ensures Consistent(Run(s, actions))
    decreases |actions|
  {
    if actions != [] {
      StepKeepsConsistent(s, actions[0].0, actions[0].1);
      RunKeepsConsistent(Step(s, actions[0].0, actions[0].1), actions[1..]);
    }
  }

  /** Whatever the user does and the services answer, the tasks view is shown only with a token */
  lemma ReachableStatesConsistent(actions: seq<(Event, Backend)>)
    ensures var t := Run(Initial, actions);
      && !t.busy
      && (t.mode == Tasks <==> t.idToken.Some?)
      && (t.mode != Tasks ==> t.tasks == [])
  {
    RunKeepsConsistent(Initial, actions);
  }

  /** A sign-in handler run outside the tasks view ends there only with an authenticated sign-in */
  lemma SignInEntersTasksOnlyWhenAuthenticated(s: State, provider: Cognito.SignInCall -> Cognito.SignInReply,
                                               list: ListTasks)
    requires s.mode != Tasks
    ensures HandleSignIn(s, provider, list).mode == Tasks ==>
      && Cognito.SignIn(Trim(s.email), s.password, provider).Ok?
      && HandleSignIn(s, provider, list).idToken == Some(Cognito.SignIn(Trim(s.email), s.password, provider).value)
  {
  }

  /** Outside the tasks view, no action other than submitting the sign-in form opens it */
  lemma OtherActionsStayOutsideTasks(s: State, e: Event, b: Backend)
    requires Consistent(s) && s.mode != Tasks && e != SubmitSignIn
    ensures Step(s, e, b).mode != Tasks
  {
    if Enabled(s, e) {
      assert Step(s, e, b) == Dispatch(s, e, b);
      match e
      case SubmitSignUp =>
        var t := HandleSignUp(s, b.signUp);
        assert Dispatch(s, e, b) == t;
        assert t.mode == Confirm || t.mode == s.mode;
      case SubmitConfirm =>
        var t := HandleConfirm(s, b.confirm);
        assert Dispatch(s, e, b) == t;
        assert t.mode == SignIn || t.mode == s.mode;
      case _ =>
    }
  }

  /** An enabled sign-in submission runs the sign-in handler */
  lemma StepSignInRunsHandler(s: State, b: Backend)
    requires Enabled(s, SubmitSignIn)
    ensures Step(s, SubmitSignIn, b) == HandleSignIn(s, b.signIn, b.list)
  {
  }

  /**
    The tasks view is reachable: from the initial state, typing an address and
    a password and submitting the sign-in form opens it when the provider
    authenticates the user.
   */
  lemma SignInReachesTasks(b: Backend)
    requires b.signIn(Cognito.SignInCall("a@b.c", "p")) == Cognito.Authenticated("tok")
    ensures var t := Run(Initial, [(EditEmail("a@b.c"), b), (EditPassword("p"), b), (SubmitSignIn, b)]);
      t.mode == Tasks && t.idToken == Some("tok")
  {
    var s1 := Step(Initial, EditEmail("a@b.c"), b);
    var s2 := Step(s1, EditPassword("p"), b);
    SampleFormFilled(b);
    SampleSignInAuthenticated(b.signIn);
    StepSignInRunsHandler(s2, b);
    RunFirst(Initial, EditEmail("a@b.c"), b, [(EditPassword("p"), b), (SubmitSignIn, b)]);
    RunFirst(s1, EditPassword("p"), b, [(SubmitSignIn, b)]);
    RunFirst(s2, SubmitSignIn, b, []);
    assert [(EditEmail("a@b.c"), b)] + [(EditPassword("p"), b), (SubmitSignIn, b)]
        == [(EditEmail("a@b.c"), b), (EditPassword("p"), b), (SubmitSignIn, b)];
  }

  /** Typing the sample address and password into the initial form enables its submit button */
  lemma SampleFormFilled(b: Backend)
    ensures var s2 := Step(Step(Initial, EditEmail("a@b.c"), b), EditPassword("p"), b);
      s2 == Initial.(email := "a@b.c", password := "p") && Enabled(s2, SubmitSignIn)
  {
    var s1 := Step(Initial, EditEmail("a@b.c"), b);
    assert s1 == Initial.(email := "a@b.c");
    var s2 := Step(s1, EditPassword("p"), b);
    assert s2 == s1.(password := "p");
    assert !IsWhitespace(s2.email[0]) && !IsWhitespace(s2.password[0]);
  }

  /** The sample address is already normalised and valid, so the provider's token comes back */
  lemma SampleSignInAuthenticated(provider: Cognito.SignInCall -> Cognito.SignInReply)
    requires provider(Cognito.SignInCall("a@b.c", "p")) == Cognito.Authenticated("tok")
    ensures Trim("a@b.c") == "a@b.c"
    ensures Cognito.SignIn("a@b.c", "p", provider) == Ok("tok")
  {
    assert IsTrimmed("a@b.c");
    TrimOfTrimmed("a@b.c");
    var lower := ToLower("a@b.c");
    assert lower[0] == 'a' && lower[1] == '@' && lower[2] == 'b' && lower[3] == '.' && lower[4] == 'c';
    assert lower == "a@b.c";
    assert Cognito.NormaliseEmail("a@b.c") == "a@b.c";
    EmailPattern.SampleAddressMatches();
  }

  /** Running a non-empty sequence runs its first action, then the rest */
  lemma RunFirst(s: State, e: Event, b: Backend, rest: seq<(Event, Backend)>)
    ensures Run(s, [(e, b)] + rest) == Run(Step(s, e, b), rest)
  {
    assert ([(e, b)] + rest)[1..] == rest;
  }

  /** The only way into the tasks view is a sign-in the provider authenticated */
  lemma TasksViewOnlyAfterSignIn(s: State, e: Event, b: Backend)
    requires Consistent(s) && s.mode != Tasks
    ensures Step(s, e, b).mode == Tasks ==>
      && e == SubmitSignIn
      && Cognito.SignIn(Trim(s.email), s.password, b.signIn).Ok?
      && Step(s, e, b).idToken == Some(Cognito.SignIn(Trim(s.email), s.password, b.signIn).value)
  {
    if e != SubmitSignIn {
      OtherActionsStayOutsideTasks(s, e, b);
    } else if !Enabled(s, e) {
      assert Step(s, e, b) == s;
    } else {
      StepSignInRunsHandler(s, b);
      SignInEntersTasksOnlyWhenAuthenticated(s, b.signIn, b.list);
    }
  }

  /** With the sign-up button enabled, the only client-side rejection left is an invalid address */
  lemma EnabledSignUpPassesRequiredChecks(s: State)
    requires CanSignUp(s)
    ensures var v := Cognito.ValidateSignUp(Trim(s.username), Trim(s.email), s.password);
      v.Ok? || v == Err(Cognito.InvalidEmail)
  {
    Cognito.SignUpIgnoresPretrim(s.username, s.email, s.password);
  }

  /** With the sign-in button enabled, the only client-side rejection left is an invalid address */
  lemma EnabledSignInPassesRequiredChecks(s: State)
    requires CanSignIn(s)
    ensures var v := Cognito.ValidateSignIn(Trim(s.email), s.password);
      v.Ok? || v == Err(Cognito.InvalidEmail)
  {
    Cognito.SignInIgnoresPretrim(s.email, s.password);
  }

  /** With the verify button enabled, the confirmation request always reaches the provider */
  lemma EnabledConfirmPassesChecks(s: State)
    requires CanConfirm(s)
    ensures Cognito.ValidateConfirm(Trim(s.username), Trim(s.code)).Ok?
  {
    Cognito.ConfirmIgnoresPretrim(s.username, s.code);
  }
}

=== FILE: appsync.dfy ===
/**
  `appsyncRequest`: the empty-query guard, the request it sends, and how it
  classifies the GraphQL endpoint's answer.

  The endpoint is a parameter, a function from the request to the HTTP response
  it would produce. The checks on the response run in a fixed order: the HTTP
  status first, then the `errors` array, then `data`.
 */
module AppSync {
  import opened Outcomes
  import opened Text

  const EmptyQuery := "GraphQL query cannot be empty."
  const GenericGraphQLError := "GraphQL error"
  const MissingData := "GraphQL response did not include data."
  const NoResponseBody := "no response body"
  const FailurePrefix := "AppSync request failed ("

  /** A parsed JSON value */
  datatype Json =
    | JNull
    | JBool(b: bool)
    | JNumber(n: int)
    | JString(s: string)
    | JArray(items: seq<Json>)
    | JObject(fields: seq<(string, Json)>)
  {
    /** JavaScript truthiness: `null`, `false`, `0` and `""` are falsy; arrays and objects are not */
    predicate Truthy(): (b: bool)
      ensures !b <==> this in {JNull, JBool(false), JNumber(0), JString("")}
    {
      match this
      case JNull => false
      case JBool(b) => b
      case JNumber(n) => n != 0
      case JString(s) => s != []
      case JArray(_) => true
      case JObject(_) => true
    }
  }

  /** One entry of the `errors` array; `None` stands for an entry without a `message` */
  datatype GraphQLError = GraphQLError(message: Option<string>)

  /** The decoded body; `None` stands for an absent (or null) member */
  datatype GraphQLResponse = GraphQLResponse(data: Option<Json>, errors: Option<seq<Option<GraphQLError>>>)

  /**
    What `fetch` resolves with: the `ok` flag and the status line, and what each
    body reader settles to: `res.text()` (read when the status is not ok) and
    `res.json()` (read when it is). Either reader may reject.
   */
  datatype HttpResponse = HttpResponse(ok: bool, status: nat, statusText: string,
                                       text: Result<string>, json: Result<GraphQLResponse>)

  /** The POST the client sends: the id token as `Authorization`, the trimmed query, the variables */
  datatype Request = Request(authorization: string, query: string, variables: Option<Json>)

  /** `json.errors?.length` is truthy: the array is present and non-empty */
  predicate HasErrors(errors: Option<seq<Option<GraphQLError>>>): (b: bool)
    ensures errors == None || errors == Some([]) ==> !b
    ensures errors.Some? && |errors.value| > 0 ==> b
  {
    errors.Some? && |errors.value| > 0
  }

  /** `json.errors[0]?.message ?? "GraphQL error"`: an empty message is kept, only a missing one is replaced */
  function FirstErrorMessage(errors: seq<Option<GraphQLError>>): (m: string)
    requires |errors| > 0
    ensures errors[0].Some? && errors[0].value.message.Some? ==> m == errors[0].value.message.value
    ensures errors[0].None? || errors[0].value.message.None? ==> m == GenericGraphQLError
  {
    match errors[0]
    case Some(GraphQLError(Some(message))) => message
    case _ => GenericGraphQLError
  }

  /** The message thrown for a non-ok status: the status line, then the body or a placeholder */
  function FailureMessage(status: nat, statusText: string, text: string): (m: string)
    ensures FailurePrefix <= m
    ensures var k := |FailurePrefix|; var d := Decimal(status);
      && k + |d| < |m|
      && m[k..k + |d|] == d
      && m[k + |d|] == ' '
    ensures Contains(m, statusText)
    ensures Contains(m, if text == [] then NoResponseBody else text)
  {
    var detail := if Text.Truthy(text) then text else NoResponseBody;
    var m := FailurePrefix + Decimal(status) + " " + statusText + "): " + detail;
    ContainsInfix(FailurePrefix + Decimal(status) + " ", statusText, "): " + detail);
    assert m == (FailurePrefix + Decimal(status) + " ") + statusText + ("): " + detail);
    ContainsInfix(FailurePrefix + Decimal(status) + " " + statusText + "): ", detail, "");
    assert m == (FailurePrefix + Decimal(status) + " " + statusText + "): ") + detail + "";
    m
  }

  /** The status can be read back from the failure message: the digits after the prefix denote it */
  lemma FailureMessageStatusReadsBack(status: nat, statusText: string, text: string)
    ensures var m := FailureMessage(status, statusText, text);
      var k := |FailurePrefix|; var d := |Decimal(status)|;
      && (forall i | k <= i < k + d :: '0' <= m[i] <= '9')
      && ParseDecimal(m[k..k + d]) == status
  {
    DecimalRoundTrip(status);
  }

  /** The empty-query guard and the request built when it passes */
  function PrepareRequest(idToken: string, query: string, variables: Option<Json>): (r: Result<Request>)
    ensures r.Err? <==> AllWhitespace(query)
    ensures r.Err? ==> r.msg == EmptyQuery
    ensures r.Ok? ==> r.value == Request(idToken, Trim(query), variables)
    ensures r.Ok? ==> (r.value.query != [] && IsTrimmed(r.value.query)
                       && r.value.authorization == idToken && r.value.variables == variables)
  {
    var normalized := Trim(query);
    if !Text.Truthy(normalized) then Err(EmptyQuery)
    else Ok(Request(idToken, normalized, variables))
  }

  /** The checks on a decoded body: a non-empty `errors` array first, then `data` */
  function ClassifyBody(json: GraphQLResponse): (r: Result<Json>)
    ensures HasErrors(json.errors) ==> r == Err(FirstErrorMessage(json.errors.value))
    ensures !HasErrors(json.errors) && (json.data.None? || !json.data.value.Truthy()) ==> r == Err(MissingData)
    ensures r.Ok? <==> (!HasErrors(json.errors) && json.data.Some? && json.data.value.Truthy())
    ensures r.Ok? ==> r.value == json.data.value
  {
    if HasErrors(json.errors) then Err(FirstErrorMessage(json.errors.value))
    else if json.data.None? || !json.data.value.Truthy() then Err(MissingData)
    else Ok(json.data.value)
  }

  /**
    The classification of a response `fetch` resolved with: a non-ok status
    fails with the body text (or the reader's own rejection); an ok one is
    decoded (or the decoder's rejection passed on) and its body checked.
   */
  function Classify(res: HttpResponse): (r: Result<Json>)
    ensures !res.ok && res.text.Err? ==> r == Err(res.text.msg)
    ensures !res.ok && res.text.Ok? ==> r == Err(FailureMessage(res.status, res.statusText, res.text.value))
    ensures res.ok && res.json.Err? ==> r == Err(res.json.msg)
    ensures res.ok && res.json.Ok? ==> r == ClassifyBody(res.json.value)
    ensures r.Ok? <==> (res.ok && res.json.Ok? && !HasErrors(res.json.value.errors)
                        && res.json.value.data.Some? && res.json.value.data.value.Truthy())
  {
    if !res.ok then
      var errorBody :- res.text;
      Err(FailureMessage(res.status, res.statusText, errorBody))
    else
      var json :- res.json;
      ClassifyBody(json)
  }

  /**
    `appsyncRequest`: the endpoint is consulted only about a non-empty trimmed
    query, and a rejected `fetch` is passed on as it is.
   */
  function AppsyncRequest(idToken: string, query: string, variables: Option<Json>,
                          endpoint: Request -> Result<HttpResponse>): (r: Result<Json>)
    ensures AllWhitespace(query) ==> r == Err(EmptyQuery)
    ensures !AllWhitespace(query) ==>
      var sent := endpoint(Request(idToken, Trim(query), variables));
      && (sent.Err? ==> r == Err(sent.msg))
      && (sent.Ok? ==> r == Classify(sent.value))
  {
    var request :- PrepareRequest(idToken, query, variables);
    var res :- endpoint(request);
    Classify(res)
  }

  /** A blank query fails the same way whatever the endpoint would have answered */
  lemma BlankQueryNeverSent(idToken: string, query: string, variables: Option<Json>,
                            e1: Request -> Result<HttpResponse>, e2: Request -> Result<HttpResponse>)
    requires AllWhitespace(query)
    ensures AppsyncRequest(idToken, query, variables, e1) == AppsyncRequest(idToken, query, variables, e2)
    ensures AppsyncRequest(idToken, query, variables, e1) == Err(EmptyQuery)
  {
  }

  /** A non-ok status decides the outcome: the JSON decoder is never consulted */
  lemma StatusBeforeBody(res: HttpResponse, json: Result<GraphQLResponse>)
    requires !res.ok
    ensures Classify(res.(json := json)) == Classify(res)
    ensures Classify(res).Err?
  {
  }

  /** A non-empty `errors` array decides the outcome whatever `data` holds */
  lemma ErrorsBeforeData(json: GraphQLResponse, data: Option<Json>)
    requires HasErrors(json.errors)
    ensures ClassifyBody(json.(data := data)) == ClassifyBody(json)
    ensures ClassifyBody(json).Err?
  {
  }

  /** An empty `errors` array is treated exactly like an absent one */
  lemma EmptyErrorsAreNoErrors(json: GraphQLResponse)
    ensures ClassifyBody(json.(errors := Some([]))) == ClassifyBody(json.(errors := None))
  {
  }

  /** Falsy `data` is reported as missing, even though a value was present */
  lemma FalsyDataIsMissing(json: GraphQLResponse)
    requires !HasErrors(json.errors)
    requires json.data in {Some(JNull), Some(JBool(false)), Some(JNumber(0)), Some(JString(""))}
    ensures ClassifyBody(json) == Err(MissingData)
  {
  }

  /** An error entry with an empty message yields an empty error message, not the generic one */
  lemma EmptyErrorMessageKept(json: GraphQLResponse)
    requires json.errors.Some? && |json.errors.value| > 0
    requires json.errors.value[0] == Some(GraphQLError(Some("")))
    ensures ClassifyBody(json) == Err("")
  {
  }
}

=== FILE: cognito.dfy ===
/**
  The validation and normalisation that `signUp`, `confirmSignUp` and `signIn`
  perform before handing a request to the hosted identity provider.

  The provider itself is a parameter: a function from the request the client
  would send to the answer it would get. A validation failure rejects without
  consulting it, so the result of a rejected call does not depend on the
  provider at all.
 */
module Cognito {
  import opened Outcomes
  import opened Text
  import opened EmailPattern

  const UsernameRequired := "Username is required"
  const EmailRequired := "Email is required"
  const InvalidEmail := "Please enter a valid email address."
  const PasswordRequired := "Password is required"
  const CodeRequired := "Confirmation code is required"
  const NewPasswordRequired := "New password required"

  /** `pool.signUp(username, password, [email attribute], [])` */
  datatype SignUpCall = SignUpCall(username: string, password: string, email: string)

  /** `new CognitoUser({Username}).confirmRegistration(code, true)` */
  datatype ConfirmCall = ConfirmCall(username: string, code: string)

  /** `new CognitoUser({Username}).authenticateUser({Username, Password})` */
  datatype SignInCall = SignInCall(username: string, password: string)

  /** The outcomes of `authenticateUser` for which the client supplies a callback; a session is represented by its id token */
  datatype SignInReply = Authenticated(idToken: string) | Failed(message: string) | NewPasswordChallenge

  /** `email.trim().toLowerCase()` */
  function NormaliseEmail(email: string): (e: string)
    ensures IsTrimmed(e)
    ensures e == [] <==> AllWhitespace(email)
    ensures forall i | 0 <= i < |e| :: !('A' <= e[i] <= 'Z')
    ensures e == Trim(ToLower(email))
  {
    TrimCommutesWithLower(email);
    LowerKeepsTrimmed(Trim(email));
    ToLower(Trim(email))
  }

  /** Normalising an address twice is the same as normalising it once */
  lemma NormaliseIdempotent(email: string)
    ensures NormaliseEmail(NormaliseEmail(email)) == NormaliseEmail(email)
  {
    var e := NormaliseEmail(email);
    TrimOfTrimmed(e);
    LowerIdempotent(Trim(email));
  }

  /** Trimming before normalising changes nothing */
  lemma NormaliseIgnoresPretrim(email: string)
    ensures NormaliseEmail(Trim(email)) == NormaliseEmail(email)
  {
    TrimIdempotent(email);
  }

  /** The checks `signUp` makes, in order, and the request it builds when they all pass */
  function ValidateSignUp(username: string, email: string, password: string): (r: Result<SignUpCall>)
    ensures AllWhitespace(username) ==> r == Err(UsernameRequired)
    ensures !AllWhitespace(username) && AllWhitespace(email) ==> r == Err(EmailRequired)
    ensures !AllWhitespace(username) && !AllWhitespace(email) && !MatchesEmailPattern(NormaliseEmail(email))
      ==> r == Err(InvalidEmail)
    ensures !AllWhitespace(username) && MatchesEmailPattern(NormaliseEmail(email)) && password == []
      ==> r == Err(PasswordRequired)
    ensures r.Ok? <==> !AllWhitespace(username) && MatchesEmailPattern(NormaliseEmail(email)) && password != []
    ensures r.Ok? ==> r.value == SignUpCall(Trim(username), password, NormaliseEmail(email))
    ensures r.Ok? ==> (IsTrimmed(r.value.username) && r.value.password == password
                       && NormaliseEmail(r.value.email) == r.value.email)
  {
    var u := Trim(username);
    var e := NormaliseEmail(email);
    assert TestEmail(e) <==> MatchesEmailPattern(e);
    NormaliseIdempotent(email);
    if !Truthy(u) then Err(UsernameRequired)
    else if !Truthy(e) then Err(EmailRequired)
    else if !TestEmail(e) then Err(InvalidEmail)
    else if !Truthy(password) then Err(PasswordRequired)
    else Ok(SignUpCall(u, password, e))
  }

  /** `signUp`: the provider is asked only about a request that passed validation */
  function SignUp(username: string, email: string, password: string,
                  provider: SignUpCall -> Result<()>): (r: Result<()>)
    ensures AllWhitespace(username) ==> r == Err(UsernameRequired)
    ensures r.Ok? ==> ValidateSignUp(username, email, password).Ok?
    ensures ValidateSignUp(username, email, password).Err? ==>
      r == Err(ValidateSignUp(username, email, password).msg)
    ensures ValidateSignUp(username, email, password).Ok? ==>
      r == provider(SignUpCall(Trim(username), password, NormaliseEmail(email)))
  {
    var call :- ValidateSignUp(username, email, password);
    provider(call)
  }

  /** The checks `confirmSignUp` makes, in order, and the request it builds */
  function ValidateConfirm(username: string, code: string): (r: Result<ConfirmCall>)
    ensures AllWhitespace(username) ==> r == Err(UsernameRequired)
    ensures !AllWhitespace(username) && AllWhitespace(code) ==> r == Err(CodeRequired)
    ensures r.Ok? <==> !AllWhitespace(username) && !AllWhitespace(code)
    ensures r.Ok? ==> r.value == ConfirmCall(Trim(username), Trim(code))
    ensures r.Ok? ==> (r.value.username != [] && IsTrimmed(r.value.username)
                       && r.value.code != [] && IsTrimmed(r.value.code))
  {
    var u := Trim(username);
    var c := Trim(code);
    if !Truthy(u) then Err(UsernameRequired)
    else if !Truthy(c) then Err(CodeRequired)
    else Ok(ConfirmCall(u, c))
  }

  /** `confirmSignUp`: only the trimmed username and code reach the provider */
  function ConfirmSignUp(username: string, code: string,
                         provider: ConfirmCall -> Result<()>): (r: Result<()>)
    ensures r.Ok? ==> !AllWhitespace(username) && !AllWhitespace(code)
    ensures ValidateConfirm(username, code).Err? ==> r == Err(ValidateConfirm(username, code).msg)
    ensures ValidateConfirm(username, code).Ok? ==> r == provider(ConfirmCall(Trim(username), Trim(code)))
  {
    var call :- ValidateConfirm(username, code);
    provider(call)
  }

  /** The checks `signIn` makes, in order, and the request it builds */
  function ValidateSignIn(email: string, password: string): (r: Result<SignInCall>)
    ensures AllWhitespace(email) ==> r == Err(EmailRequired)
    ensures !AllWhitespace(email) && !MatchesEmailPattern(NormaliseEmail(email)) ==> r == Err(InvalidEmail)
    ensures MatchesEmailPattern(NormaliseEmail(email)) && password == [] ==> r == Err(PasswordRequired)
    ensures r.Ok? <==> MatchesEmailPattern(NormaliseEmail(email)) && password != []
    ensures r.Ok? ==> r.value.username == NormaliseEmail(email) && r.value.password == password
  {
    var e := NormaliseEmail(email);
    assert TestEmail(e) <==> MatchesEmailPattern(e);
    if !Truthy(e) then Err(EmailRequired)
    else if !TestEmail(e) then Err(InvalidEmail)
    else if !Truthy(password) then Err(PasswordRequired)
    else Ok(SignInCall(e, password))
  }

  /** `signIn`: resolves with the session's id token, or rejects */
  function SignIn(email: string, password: string,
                  provider: SignInCall -> SignInReply): (r: Result<string>)
    ensures ValidateSignIn(email, password).Err? ==> r == Err(ValidateSignIn(email, password).msg)
    ensures r.Ok? <==> (ValidateSignIn(email, password).Ok?
                        && provider(SignInCall(NormaliseEmail(email), password)).Authenticated?)
    ensures r.Ok? ==> r.value == provider(SignInCall(NormaliseEmail(email), password)).idToken
    ensures ValidateSignIn(email, password).Ok?
      && provider(SignInCall(NormaliseEmail(email), password)).NewPasswordChallenge?
      ==> r == Err(NewPasswordRequired)
    ensures ValidateSignIn(email, password).Ok?
      && provider(SignInCall(NormaliseEmail(email), password)).Failed?
      ==> r == Err(provider(SignInCall(NormaliseEmail(email), password)).message)
  {
    var call :- ValidateSignIn(email, password);
    match provider(call)
    case Authenticated(token) => Ok(token)
    case Failed(message) => Err(message)
    case NewPasswordChallenge => Err(NewPasswordRequired)
  }

  /** A rejected sign-up never reaches the provider: any two providers give the same answer */
  lemma SignUpRejectsBeforeCalling(username: string, email: string, password: string,
                                   p1: SignUpCall -> Result<()>, p2: SignUpCall -> Result<()>)
    requires ValidateSignUp(username, email, password).Err?
    ensures SignUp(username, email, password, p1) == SignUp(username, email, password, p2)
  {
  }

  /** A rejected confirmation never reaches the provider */
  lemma ConfirmRejectsBeforeCalling(username: string, code: string,
                                    p1: ConfirmCall -> Result<()>, p2: ConfirmCall -> Result<()>)
    requires ValidateConfirm(username, code).Err?
    ensures ConfirmSignUp(username, code, p1) == ConfirmSignUp(username, code, p2)
  {
  }

  /** A rejected sign-in never reaches the provider */
  lemma SignInRejectsBeforeCalling(email: string, password: string,
                                   p1: SignInCall -> SignInReply, p2: SignInCall -> SignInReply)
    requires ValidateSignIn(email, password).Err?
    ensures SignIn(email, password, p1) == SignIn(email, password, p2)
  {
  }

  /** The password is passed on as typed: a whitespace-only password is accepted */
  lemma WhitespacePasswordAccepted(email: string, password: string)
    requires MatchesEmailPattern(NormaliseEmail(email))
    requires password != [] && AllWhitespace(password)
    ensures ValidateSignIn(email, password) == Ok(SignInCall(NormaliseEmail(email), password))
    ensures ValidateSignUp("user", email, password).Ok?
    ensures ValidateSignUp("user", email, password).value.password == password
  {
    assert !IsWhitespace('u') && "user"[0] == 'u';
  }

  /** The caller's own trimming is redundant: validation trims again */
  lemma SignUpIgnoresPretrim(username: string, email: string, password: string)
    ensures ValidateSignUp(Trim(username), Trim(email), password) == ValidateSignUp(username, email, password)
  {
    TrimIdempotent(username);
    NormaliseIgnoresPretrim(email);
  }

  /** The caller's own trimming is redundant: validation trims again */
  lemma ConfirmIgnoresPretrim(username: string, code: string)
    ensures ValidateConfirm(Trim(username), Trim(code)) == ValidateConfirm(username, code)
  {
    TrimIdempotent(username);
    TrimIdempotent(code);
  }

  /** The caller's own trimming is redundant: validation trims again */
  lemma SignInIgnoresPretrim(email: string, password: string)
    ensures ValidateSignIn(Trim(email), password) == ValidateSignIn(email, password)
  {
    NormaliseIgnoresPretrim(email);
  }

  /** Upper-case letters in an address do not matter: the provider always sees it lower-cased */
  lemma SignInCaseInsensitive(email: string, password: string)
    ensures ValidateSignIn(ToLower(email), password) == ValidateSignIn(email, password)
  {
    TrimCommutesWithLower(email);
    LowerIdempotent(Trim(email));
  }
}

=== FILE: email_pattern.dfy ===
/**
  The client-side email check `/^[^\s@]+@[^\s@]+\.[^\s@]+$/`.

  `MatchesEmailPattern` is what the regular expression means: the whole string
  splits into three non-empty runs of characters that are neither whitespace
  nor '@', joined by '@' and by '.'. `HasEmailShape` is the structural test the
  model evaluates, and `ShapeIffPattern` proves the two agree on every string.
 */
module EmailPattern {
  import opened Text

  /** A character of the class `[^\s@]` */
  predicate AtomChar(c: char) {
    !IsWhitespace(c) && c != '@'
  }

  /** A run `[^\s@]+` */
  predicate Atom(x: string) {
    |x| > 0 && forall i | 0 <= i < |x| :: AtomChar(x[i])
  }

  /** The regular expression matches `s` from its first to its last character */
  ghost predicate MatchesEmailPattern(s: string) {
    exists a, b, c :: Atom(a) && Atom(b) && Atom(c) && s == a + "@" + b + "." + c
  }

  /**
    The shape the pattern accepts: no whitespace, exactly one '@', something
    before the '@', and after it a '.' with at least one character on each side.
   */
  predicate HasEmailShape(s: string) {
    && (forall i | 0 <= i < |s| :: !IsWhitespace(s[i]))
    && exists at | 0 < at < |s| ::
      && s[at] == '@'
      && (forall j | 0 <= j < |s| && j != at :: s[j] != '@')
      && (exists d | at + 1 < d < |s| - 1 :: s[d] == '.')
  }

  /** Reading a match of the pattern as the shape */
  lemma PatternHasShape(s: string)
    requires MatchesEmailPattern(s)
    ensures HasEmailShape(s)
  {
    var a, b, c :| Atom(a) && Atom(b) && Atom(c) && s == a + "@" + b + "." + c;
    var at := |a|;
    var d := |a| + 1 + |b|;
    assert s[at] == '@';
    assert s[d] == '.';
    forall j | 0 <= j < |s| && j != at
      ensures s[j] != '@' && !IsWhitespace(s[j])
    {
      if j < at {
        assert s[j] == a[j];
      } else if j < d {
        assert s[j] == b[j - at - 1];
      } else if j > d {
        assert s[j] == c[j - d - 1];
      }
    }
    assert 0 < at < |s| && at + 1 < d < |s| - 1;
  }

  /** Splitting a string of the shape into the pattern's three runs */
  lemma ShapeMatchesPattern(s: string)
    requires HasEmailShape(s)
    ensures MatchesEmailPattern(s)
  {
    var at :| 0 < at < |s| && s[at] == '@'
      && (forall j | 0 <= j < |s| && j != at :: s[j] != '@')
      && (exists d | at + 1 < d < |s| - 1 :: s[d] == '.');
    var d :| at + 1 < d < |s| - 1 && s[d] == '.';
    var a, b, c := s[..at], s[at + 1..d], s[d + 1..];
    assert Atom(a) by {
      forall i | 0 <= i < |a| ensures AtomChar(a[i]) {
        assert a[i] == s[i];
      }
    }
    assert Atom(b) by {
      forall i | 0 <= i < |b| ensures AtomChar(b[i]) {
        assert b[i] == s[at + 1 + i];
      }
    }
    assert Atom(c) by {
      forall i | 0 <= i < |c| ensures AtomChar(c[i]) {
        assert c[i] == s[d + 1 + i];
      }
    }
    assert s == a + "@" + b + "." + c;
  }

  /** The structural test accepts exactly the strings the regular expression matches */
  lemma ShapeIffPattern(s: string)
    ensures HasEmailShape(s) <==> MatchesEmailPattern(s)
  {
    if HasEmailShape(s) {
      ShapeMatchesPattern(s);
    }
    if MatchesEmailPattern(s) {
      PatternHasShape(s);
    }
  }

  /** `emailPattern.test(s)`: true exactly when the pattern matches */
  function TestEmail(s: string): (ok: bool)
    ensures ok <==> MatchesEmailPattern(s)
    ensures ok ==> |s| >= 5 && IsTrimmed(s)
  {
    ShapeIffPattern(s);
    HasEmailShape(s)
  }

  /** A concrete address the pattern accepts */
  lemma SampleAddressMatches()
    ensures MatchesEmailPattern("a@b.c")
  {
    assert Atom("a") && Atom("b") && Atom("c");
    assert "a@b.c" == "a" + "@" + "b" + "." + "c";
  }

  /** Two '@' signs are refused, even when each half looks like an address */
  lemma SecondAtRefused()
    ensures !MatchesEmailPattern("a@b@c.d")
  {
    var s := "a@b@c.d";
    assert s[1] == '@' && s[3] == '@';
    if MatchesEmailPattern(s) {
      PatternHasShape(s);
    }
  }
}

=== FILE: friendly_errors.dfy ===
/**
  `mapFriendlyError`: replaces a provider error message by a friendlier text
  when it mentions one of six exception names. The names are tried in a fixed
  order and the first one the message contains wins; a message that mentions
  none of them is shown as it is.
 */
module FriendlyErrors {
  import opened Outcomes
  import opened Text

  // The replacement texts, in the order the mapper tries them. The two longest
  // are each one string written as two joined literals: checking a character
  // against a literal of this length one piece at a time is cheap, while doing
  // it on the whole literal is beyond the proof budget.
  const NotConfirmedText := "Please verify your email first."
  const NotAuthorizedText := "Wrong email or password."
  const UsernameExistsText := "An account with this email already exists."
  const InvalidPasswordText := "Password does not meet " + "the policy requirements."
  const CodeMismatchText := "Invalid verification code."
  const ExpiredCodeText := "That verification code expired. " + "Please request a new one."

  /** The exception names in the order they are tried, each with the text that replaces the message */
  const Table: seq<(string, string)> := [
    ("UserNotConfirmedException", NotConfirmedText),
    ("NotAuthorizedException", NotAuthorizedText),
    ("UsernameExistsException", UsernameExistsText),
    ("InvalidPasswordException", InvalidPasswordText),
    ("CodeMismatchException", CodeMismatchText),
    ("ExpiredCodeException", ExpiredCodeText)
  ]

  /** One of the six replacement texts */
  predicate IsFriendlyText(t: string) {
    exists k | 0 <= k < |Table| :: Table[k].1 == t
  }

  /** The message mentions none of the six exception names */
  predicate MentionsNoException(message: string) {
    forall k | 0 <= k < |Table| :: !Contains(message, Table[k].0)
  }

  /** The mapper as the client writes it: a chain of substring tests */
  function MapFriendlyError(message: string): (r: string)
    ensures r == message || IsFriendlyText(r)
    ensures Contains(message, "UserNotConfirmedException") ==> r == NotConfirmedText
    ensures MentionsNoException(message) ==> r == message
  {
    assert Table[0].1 == NotConfirmedText && Table[1].1 == NotAuthorizedText;
    assert Table[2].1 == UsernameExistsText && Table[3].1 == InvalidPasswordText;
    assert Table[4].1 == CodeMismatchText && Table[5].1 == ExpiredCodeText;
    var m := message;
    if Contains(m, "UserNotConfirmedException") then NotConfirmedText
    else if Contains(m, "NotAuthorizedException") then NotAuthorizedText
    else if Contains(m, "UsernameExistsException") then UsernameExistsText
    else if Contains(m, "InvalidPasswordException") then InvalidPasswordText
    else if Contains(m, "CodeMismatchException") then CodeMismatchText
    else if Contains(m, "ExpiredCodeException") then ExpiredCodeText
    else message
  }

  /** Reference lookup: the text of the first row whose name the message contains */
  function FirstMatch(table: seq<(string, string)>, message: string): Option<string>
  {
    if table == [] then None
    else if Contains(message, table[0].0) then Some(table[0].1)
    else FirstMatch(table[1..], message)
  }

  /** The lookup finds row `k` exactly when row `k` matches and no earlier row does */
  lemma {:induction false} FirstMatchIsFirst(table: seq<(string, string)>, message: string, k: nat)
    requires k < |table|
    ensures FirstMatch(table, message) == Some(table[k].1) <==
      (Contains(message, table[k].0) && forall j | 0 <= j < k :: !Contains(message, table[j].0))
  {
    if k > 0 && !Contains(message, table[0].0) {
      assert forall j | 0 <= j < k - 1 :: table[1..][j] == table[j + 1];
      FirstMatchIsFirst(table[1..], message, k - 1);
    }
  }

  /** The lookup finds nothing exactly when no row matches */
  lemma {:induction false} FirstMatchNone(table: seq<(string, string)>, message: string)
    ensures FirstMatch(table, message).None? <==>
      forall k | 0 <= k < |table| :: !Contains(message, table[k].0)
  {
    if table != [] {
      FirstMatchNone(table[1..], message);
      assert forall k | 1 <= k < |table| :: table[k] == table[1..][k - 1];
    }
  }

  /** The client's chain of tests is the first-match lookup in the table */
  lemma MapFriendlyErrorIsLookup(message: string)
    ensures MapFriendlyError(message) == FirstMatch(Table, message).GetOr(message)
  {
    var t0 := Table;
    var t1, t2, t3, t4, t5 := t0[1..], t0[2..], t0[3..], t0[4..], t0[5..];
    assert t1[1..] == t2 && t2[1..] == t3 && t3[1..] == t4 && t4[1..] == t5 && t5[1..] == [];
    assert FirstMatch(t5, message) == if Contains(message, t5[0].0) then Some(t5[0].1) else None;
    assert FirstMatch(t4, message) == if Contains(message, t4[0].0) then Some(t4[0].1) else FirstMatch(t5, message);
    assert FirstMatch(t3, message) == if Contains(message, t3[0].0) then Some(t3[0].1) else FirstMatch(t4, message);
    assert FirstMatch(t2, message) == if Contains(message, t2[0].0) then Some(t2[0].1) else FirstMatch(t3, message);
    assert FirstMatch(t1, message) == if Contains(message, t1[0].0) then Some(t1[0].1) else FirstMatch(t2, message);
  }

  /** Priority: whatever else the message says, the first name it contains decides the text */
  lemma MapFriendlyErrorPriority(message: string, k: nat)
    requires k < |Table|
    requires Contains(message, Table[k].0)
    requires forall j | 0 <= j < k :: !Contains(message, Table[j].0)
    ensures MapFriendlyError(message) == Table[k].1
  {
    MapFriendlyErrorIsLookup(message);
    FirstMatchIsFirst(Table, message, k);
  }

  /** No replacement text has a capital 'E' */
  lemma FriendlyTextLacksCapitalE(k: nat)
    requires k < |Table|
    ensures 'E' !in Table[k].1
  {
    if k == 0 {
      assert 'E' !in NotConfirmedText;
    } else if k == 1 {
      assert 'E' !in NotAuthorizedText;
    } else if k == 2 {
      assert 'E' !in UsernameExistsText;
    } else if k == 3 {
      assert 'E' !in "Password does not meet ";
      assert 'E' !in "the policy requirements.";
    } else if k == 4 {
      assert 'E' !in CodeMismatchText;
    } else {
      assert 'E' !in "That verification code expired. ";
      assert 'E' !in "Please request a new one.";
    }
  }

  /** Every exception name ends in "Exception", so it has both a capital 'E' and an 'x' */
  lemma NameHasExceptionLetters(k: nat)
    requires k < |Table|
    ensures 'E' in Table[k].0 && 'x' in Table[k].0
  {
    var name := Table[k].0;
    assert name[|name| - 9] == 'E' && name[|name| - 8] == 'x';
  }

  /** A text without a capital 'E', or without an 'x', mentions no exception name */
  lemma MentionsNoExceptionWithout(t: string, c: char)
    requires c == 'E' || c == 'x'
    requires c !in t
    ensures MentionsNoException(t)
    ensures MapFriendlyError(t) == t
  {
    forall j | 0 <= j < |Table|
      ensures !Contains(t, Table[j].0)
    {
      NameHasExceptionLetters(j);
      MissingCharNotContained(t, Table[j].0, c);
    }
  }

  /** None of the replacement texts mentions an exception name */
  lemma FriendlyTextsMentionNoException(t: string)
    requires IsFriendlyText(t)
    ensures MentionsNoException(t)
  {
    var k :| 0 <= k < |Table| && Table[k].1 == t;
    FriendlyTextLacksCapitalE(k);
    MentionsNoExceptionWithout(t, 'E');
  }

  /** Mapping an already mapped message changes nothing */
  lemma MapFriendlyErrorIdempotent(message: string)
    ensures MapFriendlyError(MapFriendlyError(message)) == MapFriendlyError(message)
  {
    var r := MapFriendlyError(message);
    if r != message {
      FriendlyTextsMentionNoException(r);
    }
  }
}

=== FILE: outcomes.dfy ===
/**
  The two wrapper types the rest of the model is written in.

  `Option` stands for a JavaScript value that may be `null`/`undefined`;
  `Result` stands for a settled promise: `Ok(value)` when it resolved,
  `Err(msg)` when it rejected with an `Error` whose `message` is `msg`.
 */
module Outcomes {

  datatype Option<+T> = None | Some(value: T) {

    /** The value, or `default` when there is none (the `??` operator) */
    function GetOr(default: T): T {
      match this
      case Some(v) => v
      case None => default
    }
  }

  datatype Result<+T> = Ok(value: T) | Err(msg: string) {

    /** True if the promise rejected */
    predicate IsFailure() {
      Err?
    }

    /** Re-types a rejection */
    function PropagateFailure<U>(): Result<U>
      requires Err?
    {
      Err(msg)
    }

    /** Returns the resolved value */
    function Extract(): T
      requires Ok?
    {
      value
    }
  }
}

=== FILE: text.dfy ===
/**
  The JavaScript string primitives the client relies on: `String.prototype.trim`,
  `toLowerCase`, `includes`, the truthiness of a string, and the decimal
  rendering of a number inside a template literal.

  Whitespace is the ECMAScript WhiteSpace and LineTerminator set. The same set
  is what `trim` strips and what the regular-expression class `\s` matches, so
  one predicate serves both.
 */
module Text {

  /**
    A character `trim` strips and `\s` matches. Space, tab, line feed and
    carriage return are among them; no visible ASCII character is.
   */
  predicate IsWhitespace(c: char): (b: bool)
    ensures c == ' ' || c == '\t' || c == '\n' || c == '\r' ==> b
    ensures '!' <= c <= '~' ==> !b
  {
    var n := c as int;
    || n == 0x09 || n == 0x0A || n == 0x0B || n == 0x0C || n == 0x0D
    || n == 0x20 || n == 0xA0 || n == 0x1680
    || (0x2000 <= n <= 0x200A)
    || n == 0x2028 || n == 0x2029 || n == 0x202F || n == 0x205F
    || n == 0x3000 || n == 0xFEFF
  }

  /** Every character of `s` is whitespace (vacuously so for "") */
  predicate AllWhitespace(s: string) {
    forall i | 0 <= i < |s| :: IsWhitespace(s[i])
  }

  /** Neither end of `s` is whitespace: the shape every `trim` result has */
  predicate IsTrimmed(s: string) {
    s == [] || (!IsWhitespace(s[0]) && !IsWhitespace(s[|s| - 1]))
  }

  /** The position of the first non-whitespace character at or after `i` (or `|s|`) */
  function SkipLeading(s: string, i: nat): (n: nat)
    requires i <= |s|
    ensures i <= n <= |s|
    ensures forall k | i <= k < n :: IsWhitespace(s[k])
    ensures n < |s| ==> !IsWhitespace(s[n])
    decreases |s| - i
  {
    if i < |s| && IsWhitespace(s[i]) then SkipLeading(s, i + 1) else i
  }

  /** The position just after the last non-whitespace character before `j`, not going below `lo` */
  function SkipTrailing(s: string, lo: nat, j: nat): (m: nat)
    requires lo <= j <= |s|
    ensures lo <= m <= j
    ensures forall k | m <= k < j :: IsWhitespace(s[k])
    ensures m > lo ==> !IsWhitespace(s[m - 1])
    decreases j
  {
    if j > lo && IsWhitespace(s[j - 1]) then SkipTrailing(s, lo, j - 1) else j
  }

  /** Where the trimmed part of `s` starts */
  function TrimStartIndex(s: string): nat
    ensures TrimStartIndex(s) <= |s|
  {
    SkipLeading(s, 0)
  }

  /**
    `String.prototype.trim`: the result is the slice of `s` that is left once
    the whitespace runs at both ends are removed, so it is empty exactly when
    `s` is whitespace only.
   */
  function Trim(s: string): (r: string)
    ensures IsTrimmed(r)
    ensures var a := TrimStartIndex(s);
      && a + |r| <= |s|
      && r == s[a..a + |r|]
      && (forall k | 0 <= k < a :: IsWhitespace(s[k]))
      && (forall k | a + |r| <= k < |s| :: IsWhitespace(s[k]))
    ensures r == [] <==> AllWhitespace(s)
  {
    var a := SkipLeading(s, 0);
    var b := SkipTrailing(s, a, |s|);
    assert a < b ==> s[a..b][0] == s[a] && s[a..b][b - a - 1] == s[b - 1];
    s[a..b]
  }

  /**
    JavaScript truthiness of a string: `Boolean(s)` is false only for "", so
    a string of spaces is truthy and only an empty one is blank as well as falsy.
   */
  predicate Truthy(s: string): (b: bool)
    ensures |s| > 0 ==> b
    ensures s == [] ==> !b
    ensures !b ==> AllWhitespace(s)
  {
    s != []
  }

  /** `String.prototype.toLowerCase` on one character (ASCII letters only) */
  function LowerChar(c: char): (d: char)
    ensures 'A' <= c <= 'Z' ==> 'a' <= d <= 'z' && d as int - c as int == 32
    ensures !('A' <= c <= 'Z') ==> d == c
  {
    if 'A' <= c <= 'Z' then (c as int + 32) as char else c
  }

  /** `String.prototype.toLowerCase`, character by character */
  function ToLower(s: string): (r: string)
    ensures |r| == |s|
    ensures forall i | 0 <= i < |r| :: !('A' <= r[i] <= 'Z')
    ensures forall i | 0 <= i < |s| :: IsWhitespace(r[i]) <==> IsWhitespace(s[i])
    ensures forall i | 0 <= i < |s| :: !('A' <= s[i] <= 'Z') ==> r[i] == s[i]
    ensures forall i | 0 <= i < |s| :: 'A' <= s[i] <= 'Z' ==> r[i] as int == s[i] as int + 32
  {
    seq(|s|, i requires 0 <= i < |s| => LowerChar(s[i]))
  }

  /**
    `String.prototype.includes`: `t` occurs in `s` at some offset. The empty
    string occurs everywhere, a prefix occurs, and nothing longer than `s` does.
   */
  predicate Contains(s: string, t: string): (b: bool)
    ensures t == [] ==> b
    ensures t <= s ==> b
    ensures b ==> |t| <= |s|
  {
    assert t <= s ==> t <= s[0..];
    exists i | 0 <= i <= |s| - |t| :: t <= s[i..]
  }

  /** Trimming is idempotent */
  lemma TrimIdempotent(s: string)
    ensures Trim(Trim(s)) == Trim(s)
  {
  }

  /** Trimming an already trimmed string changes nothing */
  lemma TrimOfTrimmed(s: string)
    requires IsTrimmed(s)
    ensures Trim(s) == s
  {
  }

  /** Lower-casing keeps a trimmed string trimmed */
  lemma LowerKeepsTrimmed(s: string)
    requires IsTrimmed(s)
    ensures IsTrimmed(ToLower(s))
  {
  }

  /** Lower-casing is idempotent */
  lemma LowerIdempotent(s: string)
    ensures ToLower(ToLower(s)) == ToLower(s)
  {
  }

  /** Lower-casing a slice is slicing the lower-cased string */
  lemma LowerOfSlice(s: string, i: nat, j: nat)
    requires i <= j <= |s|
    ensures ToLower(s[i..j]) == ToLower(s)[i..j]
  {
  }

  /** Strings with whitespace at the same positions skip the same leading run */
  lemma {:induction false} SkipLeadingSameWhitespace(s: string, l: string, i: nat)
    requires |s| == |l| && i <= |s|
    requires forall k | 0 <= k < |s| :: IsWhitespace(s[k]) <==> IsWhitespace(l[k])
    ensures SkipLeading(s, i) == SkipLeading(l, i)
    decreases |s| - i
  {
    if i < |s| && IsWhitespace(s[i]) {
      SkipLeadingSameWhitespace(s, l, i + 1);
    }
  }

  /** Strings with whitespace at the same positions skip the same trailing run */
  lemma {:induction false} SkipTrailingSameWhitespace(s: string, l: string, lo: nat, j: nat)
    requires |s| == |l| && lo <= j <= |s|
    requires forall k | 0 <= k < |s| :: IsWhitespace(s[k]) <==> IsWhitespace(l[k])
    ensures SkipTrailing(s, lo, j) == SkipTrailing(l, lo, j)
    decreases j
  {
    if j > lo && IsWhitespace(s[j - 1]) {
      SkipTrailingSameWhitespace(s, l, lo, j - 1);
    }
  }

  /** Trimming and lower-casing commute, since lower-casing keeps whitespace where it was */
  lemma TrimCommutesWithLower(s: string)
    ensures Trim(ToLower(s)) == ToLower(Trim(s))
  {
    var l := ToLower(s);
    SkipLeadingSameWhitespace(s, l, 0);
    var a := SkipLeading(s, 0);
    SkipTrailingSameWhitespace(s, l, a, |s|);
    var b := SkipTrailing(s, a, |s|);
    LowerOfSlice(s, a, b);
  }

  /** A string occurs inside any string built around it */
  lemma ContainsInfix(a: string, t: string, b: string)
    ensures Contains(a + t + b, t)
  {
    var s := a + t + b;
    assert t <= s[|a|..];
  }

  /** A string that lacks one of `t`'s characters cannot contain `t` */
  lemma MissingCharNotContained(s: string, t: string, c: char)
    requires c in t && c !in s
    ensures !Contains(s, t)
  {
  }

  /** The decimal digit for `d` */
  function DigitChar(d: nat): (c: char)
    requires d < 10
    ensures '0' <= c <= '9' && c as int - '0' as int == d
  {
    ('0' as int + d) as char
  }

  /** How a template literal renders a non-negative integer: its decimal digits, most significant first */
  function Decimal(n: nat): (r: string)
    ensures |r| > 0
    ensures forall i | 0 <= i < |r| :: '0' <= r[i] <= '9'
    ensures r[0] == '0' ==> n == 0
  {
    if n < 10 then [DigitChar(n)] else Decimal(n / 10) + [DigitChar(n % 10)]
  }

  /** Reads a string of decimal digits back into the number it denotes */
  function ParseDecimal(s: string): nat
    requires forall i | 0 <= i < |s| :: '0' <= s[i] <= '9'
  {
    if s == [] then 0 else ParseDecimal(s[..|s| - 1]) * 10 + (s[|s| - 1] as int - '0' as int)
  }

  /** The decimal rendering of a number reads back as that number */
  lemma {:induction false} DecimalRoundTrip(n: nat)
    ensures ParseDecimal(Decimal(n)) == n
  {
    if n >= 10 {
      DecimalRoundTrip(n / 10);
      var r := Decimal(n);
      assert r[..|r| - 1] == Decimal(n / 10);
    }
  }
}
